=== FILE: README.md ===
# Azure blob quickstart: download path resolution and listing rules

This project models the logic of a small Azure Blob Storage toolkit. Most of the toolkit passes calls straight through to the storage SDK. What it models:

- **`BlobAccessClass`** (`blob_access_class.py`). The container list, the selected container, the accumulated blob list and the last search results it keeps between calls. How `list_containers`, `get_container`, `list_blobs` and `search_blob` change them. Above all, the four-way choice `download_blob` makes of the local path a blob is written to, followed by the creation of that path's parent directory.
- **The function-style helpers** (`azure-blob-streamlit-app/src/azure_blob_utils.py`). Listing and substring search over names, and the target and directory computed by `download_blob`.

Paths are strings over `/`. `os.path.join`, `dirname`, `basename` and `splitext` are modelled with CPython's `posixpath` behaviour (module `PosixPath`). The filesystem is a value (module `LocalFs`): a set of directories and a set of regular files, each keyed by its absolute path with trailing separators removed. `os.path.isdir`/`isfile` become a probe returning `Missing | File | Dir`. `os.makedirs(..., exist_ok=True)` and `open(..., "wb")` become functions from one filesystem value to the next. The current directory is a parameter `cwd`, and SDK listings are input sequences of names. A container client is represented by its container's name.

Modules: `Wrappers` (Option/Result), `PosixPath`, `Listing` (the collect loop and the substring filter), `LocalFs`, `BlobAccess` (the class), `BlobUtils` (the helper functions).

Three behaviours of `download_blob` in `blob_access_class.py` worth knowing:
- An empty destination is neither a directory nor a file and has no extension. It takes the missing-path branch, so only the blob's base name is kept. For example, `golf-data/ALL_GOLF.parquet` downloaded with destination `""` in `/work` lands at `/work/ALL_GOLF.parquet` (`BlobAccess.EmptyDestinationDropsFolder`).
- A missing destination is joined onto the current directory, even when it is relative. For example, `b.txt` downloaded to a missing `out` in `/work` lands at `/work/out/b.txt` (`BlobAccess.MissingDirectoryDestination`).
- A repeated download to the same missing destination without an extension does not repeat the first one. The first call creates the destination as a directory, so the second call takes the directory branch and keeps the blob's full name (`BlobAccess.RepeatDownloadTakesDirectoryBranch`).

## Model

| member | source | states |
|---|---|---|
| `PosixPath.SplitExt` | blob_access_class.py:129-130 | `root + ext == path`. The extension is non-empty exactly when some `.` of the base name comes after a character that is not a `.`, so leading dots never start one. A non-empty extension starts with `.` and contains no other `.` and no `/`. |
| `PosixPath.Join` | blob_access_class.py:123 | `posixpath.join`: an absolute component replaces the path so far. Otherwise it is appended after the path, with a `/` between them unless the path is empty or already ends in `/`. `JoinAssociative` covers the three-argument form on line 127. |
| `PosixPath.Basename` | blob_access_class.py:127 | The base name has no `/`, and the head followed by the base name gives back the path. |
| `PosixPath.Dirname` | blob_access_class.py:136 | `posixpath.dirname` has no contract of its own. It is stated by `DirnameEmpty` (empty exactly without a `/`), `DirnameOfJoin` and `FolderAndName`. |
| `PosixPath.JoinAssociative` | blob_access_class.py:127 | The three-argument `join` equals nesting the join on the right, `join(a, join(b, c))`. |
| `PosixPath.BasenameOfJoin` | blob_access_class.py:123 | The base name of `join(a, b)` is the base name of `b`, for every `a` and `b`. |
| `PosixPath.DirnameOfJoin` | azure-blob-streamlit-app/src/azure_blob_utils.py:22-26 | `dirname(join(a, b))` is `join(a, dirname(b))` with trailing separators removed, for every `a` and `b`: joining keeps the virtual folders of its last component. |
| `PosixPath.DirnameEmpty` | blob_access_class.py:136-137 | `dirname(p)` is the empty string exactly when `p` contains no `/`. |
| `PosixPath.JoinKeepsRelative` | blob_access_class.py:123 | A relative component is appended after the path so far. Joining two relative paths gives a relative path. |
| `PosixPath.FolderAndName` | blob_access_class.py:127 | For `folder/name`, `dirname` gives back `folder` and `basename` gives back `name`. |
| `LocalFs.Probe` | blob_access_class.py:121-124 | The empty path is neither a directory nor a file. A `Dir` answer means the path is a directory; a `File` answer means it is a regular file and not a directory. The probe finds something exactly when `os.path.exists` holds. |
| `LocalFs.Exists` | blob_access_class.py:136 | `os.path.exists` has no contract of its own. `Probe` states that it holds exactly when the probe finds a file or a directory, and never for the empty path. |
| `LocalFs.MakeDirs` | blob_access_class.py:137 | `os.makedirs(d, exist_ok=True)` fails exactly when `d` is empty or a regular file stands at `d` or above it. On success, the directories become exactly the old ones plus `d` and every directory above it. No file is touched, and "every directory's parents are directories" is preserved. |
| `LocalFs.EnsureDir` | blob_access_class.py:136-137 | If the path exists, nothing changes. The call fails exactly when the path is empty, or when it is missing and a regular file stands at it or above it. On success the path exists, directories are created only on its ancestry, no file is touched, and well-formedness is preserved. |
| `LocalFs.EnsureDirIdempotent` | azure-blob-streamlit-app/src/azure_blob_utils.py:22-23 | Ensuring the same directory a second time returns the filesystem unchanged. |
| `LocalFs.AncestryClosed` | blob_access_class.py:137 | The ancestry of any directory in a directory's ancestry is contained in it. This is what makes `makedirs` preserve well-formedness. |
| `LocalFs.KeyCanon` | azure-blob-streamlit-app/src/azure_blob_utils.py:22-26 | A path and the same path without trailing separators name the same entry. |
| `LocalFs.OpenForWrite` | blob_access_class.py:140-141 | Writing succeeds exactly when the target's parent is a directory and the target is not. Afterwards the target is a file, the directories are unchanged, and no other file changes. |
| `Listing.Collect` | blob_access_class.py:56-58 | The append loop returns the starting list followed by every listed name, in order. |
| `Listing.Filter` | blob_access_class.py:110-112 | Every name kept contains the term and comes from the listing. The result is no longer than the listing. |
| `Listing.Contains` | blob_access_class.py:111 | Python's `term in name` has no contract of its own. `FilterEmptyTerm` states that the empty term is in every name, and `LiteralMatchOnly` that a term holding a character the name lacks is in none. |
| `Listing.MatchingIndices` | azure-blob-streamlit-app/src/azure_blob_utils.py:16 | The positions of the listing whose names contain the term: strictly ascending, in range, and a position is included exactly when its name matches. |
| `Listing.FilterSelectsMatching` | blob_access_class.py:108-113 | The filter holds exactly the names at the matching positions, in ascending position order. It is a subsequence of the listing with every match and nothing else. |
| `Listing.CollectMatching` | blob_access_class.py:108-113 | The search loop returns exactly the names at the matching positions, in listing order. |
| `Listing.FilterEmptyTerm` | blob_access_class.py:111 | The empty search term keeps the whole listing. |
| `Listing.LiteralMatchOnly` | blob_access_class.py:111 | A term holding a character that the name lacks never matches. |
| `BlobAccess.ListContainers` | blob_access_class.py:54-58 | `container_list` becomes the listed names, in order. Nothing else changes. |
| `BlobAccess.GetContainer` | blob_access_class.py:71-77 | Selection succeeds exactly when the name is non-empty and in `container_list`. An empty name fails with the "must be provided" error, and an unlisted one fails with the "does not exist" error. On success only the selected container changes. |
| `BlobAccess.ListBlobs` | blob_access_class.py:90-95 | `blobs` becomes the given list (or `[]` for `None`) followed by the listing. Without a selected container the reset still happens and the call fails. The other attributes are unchanged. |
| `BlobAccess.SearchBlob` | blob_access_class.py:106-113 | Returns exactly the listed names containing the term, in listing order, and stores the same list as `search_results`. Without a selected container it fails and changes nothing. |
| `BlobAccess.ResolveTarget` | blob_access_class.py:121-133 | The four-way choice of the target. It has no contract of its own. Its branches are stated by `DirectoryDestination` and `AbsoluteBlobEscapes` (existing directory), `FileDestination` and `FileDestinationLayout` (existing file), `MissingDirectoryDestination` and `MissingFileDestination` (missing path without or with an extension), and `EmptyDestination` (the empty path). |
| `BlobAccess.DirectoryDestination` | blob_access_class.py:121-123 | For an existing directory, the target has the blob's base name, and its folder is the destination joined with the blob's folder. When the blob name is relative, the destination is a prefix of the target, and a relative destination stays relative, with no current directory in front. |
| `BlobAccess.AbsoluteBlobEscapes` | blob_access_class.py:121-123 | For an existing directory and an absolute blob name, `join` drops the destination and the target is the blob name itself. |
| `BlobAccess.FileDestination` | blob_access_class.py:124-127 | For an existing file, the target keeps the destination's file name. Its folder is the destination's folder joined with the blob's folder. |
| `BlobAccess.MissingDirectoryDestination` | blob_access_class.py:128-133 | For a missing destination without an extension, the target keeps only the blob's base name. Its folder is the destination resolved against the current directory. |
| `BlobAccess.MissingFileDestination` | blob_access_class.py:128-133 | For a missing destination with an extension, the target is the destination joined onto the current directory. It is the destination itself when the destination is absolute, and it keeps the destination's base name. |
| `BlobAccess.EmptyDestination` | blob_access_class.py:121-133 | The empty destination probes as missing. The target is the current directory joined with the blob's base name. |
| `BlobAccess.EmptyDestinationDropsFolder` | blob_access_class.py:129-133 | With the empty destination, a blob `folder/name` is written as `cwd` joined with `name`. |
| `BlobAccess.Write` | blob_access_class.py:135-141 | A failed directory step leaves the filesystem as it was and reports its error. Otherwise the call succeeds exactly when a container is selected, the target's parent is a directory and the target is not. On success the target is a file. No directory is added after the directory step, and no file other than the target. |
| `BlobAccess.Fetch` | blob_access_class.py:135-141 | The steps after resolution, for any target `t`. It fails without a container, with an empty `dirname(t)`, and when `t` is a directory. It also fails, leaving the filesystem unchanged, when `dirname(t)` is not a directory and a regular file stands at or above it. A file exactly at `dirname(t)` passes the `exists` test, so `makedirs` is skipped and `open` fails. It succeeds whenever the conditions stated for `DownloadBlob` hold. It creates nothing but `dirname(t)` with its ancestors and `t`. |
| `BlobAccess.FetchFixed` | blob_access_class.py:135-141 | The same steps with an empty `dirname(t)` read as the current directory. It has the same failure for a regular file at or above a non-empty `dirname(t)` that is not a directory, succeeds whenever the conditions stated for `DownloadBlobFixed` hold, and has the same bounds on what it creates. |
| `BlobAccess.DownloadBlob` | blob_access_class.py:119-146 | On success the path written is the resolved target `t`, its directory part is non-empty, the file exists and its parent is a directory. When every directory's parents were directories beforehand, every directory above it exists too. The call succeeds whenever a container is selected, `dirname(t)` is non-empty, no file stands at or above `dirname(t)`, and `t` is not and will not become a directory. It fails without a container, with an empty `dirname(t)`, and when `t` is a directory. When `dirname(t)` is not a directory and a regular file stands at or above it, the call fails and the filesystem is unchanged: `makedirs` fails when `dirname(t)` is missing, and `open` fails when `dirname(t)` is itself a file. It creates only `dirname(t)` with its ancestors and the file `t`, removes nothing, and preserves well-formedness. |
| `BlobAccess.DownloadBlobFixed` | blob_access_class.py:136-137 | The same guarantees as `DownloadBlob`, except that an empty `dirname(t)` means the current directory. The call then succeeds whenever the current directory is a directory and the other conditions hold. A regular file at or above a non-empty `dirname(t)` that is not a directory still makes it fail with the filesystem unchanged. |
| `BlobAccess.BareFileDestinationFails` | blob_access_class.py:124-137 | As written: an existing file named without `/`, receiving a blob without a folder, resolves to the file itself, and the download fails on `makedirs("")`. |
| `BlobAccess.BareFileDestinationExample` | blob_access_class.py:136-137 | `report.csv` existing in `/work` plus blob `data.csv` gives the failure above. |
| `BlobAccess.FixedOverwritesBareFile` | blob_access_class.py:124-141 | In the same situation, the corrected download writes the destination file itself. |
| `BlobAccess.FixedAgreesElsewhere` | blob_access_class.py:136-137 | The corrected download equals the as-written one whenever the latter does not fail on the empty directory name. |
| `BlobAccess.RepeatDownloadTakesDirectoryBranch` | blob_access_class.py:121-137 | With an absolute current directory, a successful download as written to a missing non-empty destination without an extension leaves the destination probing as a directory. The next download resolves to `join(dest, blob)`. |
| `BlobAccess.FileDestinationLayout` | blob_access_class.py:124-127 | An existing file `folder/name` receiving blob `sub/bname` is written as `folder/sub/name`. For example, `/data/out.csv` receiving `2024/report.csv` gives `/data/2024/out.csv`. |
| `BlobUtils.ListNames` | azure-blob-streamlit-app/src/azure_blob_utils.py:7-12 | The listed names, one for one, in listing order. |
| `BlobUtils.SearchBlobsInContainer` | azure-blob-streamlit-app/src/azure_blob_utils.py:14-16 | Exactly the listed names containing the pattern, in listing order. |
| `BlobUtils.EmptyPatternFindsAll` | azure-blob-streamlit-app/src/azure_blob_utils.py:16 | The empty pattern returns the whole listing. |
| `BlobUtils.WildcardIsLiteral` | azure-blob-streamlit-app/src/azure_blob_utils.py:16 | A pattern with `*` finds nothing in a listing without `*`. This is substring matching, not wildcard matching. |
| `BlobUtils.DownloadDirIsParent` | azure-blob-streamlit-app/src/azure_blob_utils.py:22-26 | The target keeps the blob's base name. The directory ensured is exactly the target's parent, both as a string up to trailing separators and as a filesystem entry. |
| `BlobUtils.DownloadDir` | azure-blob-streamlit-app/src/azure_blob_utils.py:22-23 | `join(dest, dirname(blob))` has no contract of its own. `DownloadDirIsParent` states that it is the parent of `DownloadTarget`, and `AbsoluteDestinationHasDir` that it is never empty for an absolute destination. |
| `BlobUtils.DownloadTarget` | azure-blob-streamlit-app/src/azure_blob_utils.py:26 | `join(dest, blob)` has no contract of its own. `DownloadDirIsParent` states that it keeps the blob's base name under `DownloadDir`. |
| `BlobUtils.AbsoluteDestinationHasDir` | azure-blob-streamlit-app/src/azure_blob_utils.py:18-23 | With an absolute destination, such as the default working directory, the ensured directory is never empty. |
| `BlobUtils.DownloadBlob` | azure-blob-streamlit-app/src/azure_blob_utils.py:18-27 | On success the path written is `t = join(dest, blob)`, the file exists, and its parent exists. When every directory's parents were directories beforehand, every directory above it exists too. The call succeeds whenever the ensured directory `join(dest, dirname(blob))` is non-empty, no file stands at or above it, and `t` is not and will not become a directory. An empty directory makes the call fail and change nothing. When the ensured directory is not a directory and a regular file stands at or above it, the call fails and the filesystem is unchanged: `makedirs` fails when it is missing, and `open` fails when it is itself a file. A directory at `t` makes the call fail. Only the ensured directory with its ancestors and the file `t` are created. Nothing is removed, and well-formedness is preserved. |
| `BlobUtils.Store` | azure-blob-streamlit-app/src/azure_blob_utils.py:22-27 | For any directory `dir` naming the target's parent, ensuring `dir` then writing `t` has the success condition, failure cases and creation bounds stated for `BlobUtils.DownloadBlob`. This includes the failure with nothing changed when `dir` is not a directory and a regular file stands at or above it. |
| `BlobUtils.RepeatDownloadCreatesNothing` | azure-blob-streamlit-app/src/azure_blob_utils.py:22-23 | Repeating a successful download creates no further directory. |

## Left out

- The Azure SDK calls (`BlobServiceClient`, `get_container_client`, `get_blob_client`, `list_containers`/`list_blobs` iteration, `download_blob().readall()`, `upload_blob`) are foreign code. Their listings are inputs, and their own failures (authentication, network, missing container or blob) are not modelled.
- `BlobAccessClass.__init__`, `load_dotenv`, `os.getenv` and credential handling are environment I/O.
- `upload_blob` (blob_access_class.py:149-157) is a pure pass-through from an open file to the SDK.
- The bytes written and the file handles are not modelled. A download records only that the target file exists afterwards.
- `print` logging is left out everywhere.
- rough/azure-blob-streamlit-app/src/app.py (UI glue) and blob_quickstart.py (a one-shot script) are not part of this model.
- The `download_file_path=os.getcwd()` default is evaluated at import time. The destination is an explicit parameter instead.
- Windows and drive-letter paths are left out: only POSIX `os.path` is modelled.
- The filesystem keys do not normalise `.`, `..` or repeated `/` inside a path, and do not follow symbolic links. Most visibly, `download_blob(b, ".")` probes `.` as missing unless the key `cwd/.` is itself a directory. The model then takes the missing-path branch and resolves to `cwd/./name`, keeping only the blob's base name. The real code takes the directory branch and writes `./` followed by the full blob name, so the model loses the blob's folders. `isfile("f/")` and `exists("f/")` on a regular file `f` count as true here but are false on POSIX.
- `os.makedirs` failures other than the empty path and a file in the way (permissions, races) are not modelled, and neither are write failures other than a missing parent or a directory at the target.
- `list_blobs` appends to the very list object passed in, which the caller also holds. The model returns a new sequence, so that aliasing is not modelled.
- `search_results` does not exist before the first `search_blob`. The model starts it as the empty list.
- A `None` container name or search term is left out: names and terms are strings, and an empty name stands for every falsy one.

## Findings

| source | as written | input that shows it | evidently intended | confidence | as-written member | corrected member |
|---|---|---|---|---|---|---|
| blob_access_class.py:124-137 | When the destination is an existing file named without a directory and the blob name has no folder, the target's `dirname` is `""`. `os.path.exists("")` is false, so `os.makedirs("", exist_ok=True)` runs and raises `FileNotFoundError`. | The current directory `/work` holds `report.csv`, and `download_blob("data.csv", "report.csv")` is called. | The download overwrites `report.csv` in the current directory: an empty directory part means the current directory, which exists. | high; not executed | `BlobAccess.BareFileDestinationFails` | `BlobAccess.DownloadBlobFixed` |

`BlobAccess.FixedAgreesElsewhere` shows that the correction changes nothing but this case.

=== FILE: azure_blob_utils.dfy ===
/** The function-style helpers of the companion UI: listing, substring
    search and download of one blob. The SDK listings are inputs; the
    destination of a download is an explicit parameter. */
module BlobUtils {
  import opened Wrappers
  import opened PosixPath
  import opened Listing
  import opened LocalFs

  /** `list_containers` and `list_blobs_in_container`: the listed names,
      one for one, in listing order. */
  function ListNames(listing: seq<string>): (names: seq<string>)
    ensures |names| == |listing|
    ensures forall i :: 0 <= i < |listing| ==> names[i] == listing[i]
  {
    seq(|listing|, i requires 0 <= i < |listing| => listing[i])
  }

  /** `search_blobs_in_container`: the listed names containing `pattern`,
      every one of them and only those, in listing order. */
  function SearchBlobsInContainer(listing: seq<string>, pattern: string): (r: seq<string>)
    ensures |r| == |MatchingIndices(listing, pattern)|
    ensures forall k :: 0 <= k < |r| ==> r[k] == listing[MatchingIndices(listing, pattern)[k]]
  {
    FilterSelectsMatching(listing, pattern);
    Filter(listing, pattern)
  }

  /** The empty pattern finds every blob. */
  lemma EmptyPatternFindsAll(listing: seq<string>)
    ensures SearchBlobsInContainer(listing, []) == listing
  {
    FilterEmptyTerm(listing);
  }

  /** The pattern is matched literally: a '*' meant as a wildcard (as the
      UI's prompt "golf*" suggests) matches only names holding a '*'. */
  lemma WildcardIsLiteral(listing: seq<string>, pattern: string, k: int)
    requires 0 <= k < |pattern| && pattern[k] == '*'
    requires forall i :: 0 <= i < |listing| ==> '*' !in listing[i]
    ensures SearchBlobsInContainer(listing, pattern) == []
  {
    var r := Filter(listing, pattern);
    if r != [] {
      assert r[0] in listing;
      LiteralMatchOnly(r[0], pattern, k);
    }
  }

  /** The directory `download_blob` ensures before writing. */
  function DownloadDir(dest: Path, blob: Path): Path {
    Join(dest, Dirname(blob))
  }

  /** The file `download_blob` writes. */
  function DownloadTarget(dest: Path, blob: Path): Path {
    Join(dest, blob)
  }

  /** The target keeps the blob's name and virtual folders below the
      destination, and the ensured directory is exactly its parent. */
  lemma DownloadDirIsParent(cwd: Path, dest: Path, blob: Path)
    ensures Basename(DownloadTarget(dest, blob)) == Basename(blob)
    ensures Dirname(DownloadTarget(dest, blob)) == Canon(DownloadDir(dest, blob))
    ensures Key(cwd, Dirname(DownloadTarget(dest, blob))) == Key(cwd, DownloadDir(dest, blob))
  {
    BasenameOfJoin(dest, blob);
    DirnameOfJoin(dest, blob);
    KeyCanon(cwd, DownloadDir(dest, blob));
  }

  /** With an absolute destination, as the default (the working directory
      at import time) is, the ensured directory is never the empty path. */
  lemma AbsoluteDestinationHasDir(dest: Path, blob: Path)
    requires IsAbsolute(dest)
    ensures DownloadDir(dest, blob) != []
  {
    JoinKeepsAbsolute(dest, Dirname(blob));
  }

  /** `download_blob`: create the directory when it does not exist, then
      write the blob to `join(download_file_path, blob_name)`. */
  function DownloadBlob(fs: Fs, cwd: Path, blob: Path, dest: Path): (a: Attempt<FsError>)
    ensures a.outcome.Success? ==> a.outcome.value == DownloadTarget(dest, blob)
    ensures a.outcome.Success? ==>
              && Key(cwd, a.outcome.value) in a.fs.files
              && Key(cwd, Dirname(a.outcome.value)) in a.fs.dirs
    ensures a.outcome.Success? && WellFormed(fs) ==> Ancestry(Key(cwd, Dirname(a.outcome.value))) <= a.fs.dirs
    ensures DownloadDir(dest, blob) == [] ==> a == Attempt(fs, Failure(NoSuchFileOrDirectory([])))
    ensures var t, up := DownloadTarget(dest, blob), Ancestry(Key(cwd, DownloadDir(dest, blob)));
            && (DownloadDir(dest, blob) != [] && up * fs.files == {} && Key(cwd, t) !in fs.dirs + up
                ==> a.outcome == Success(t))
            && (Key(cwd, t) in fs.dirs ==> a.outcome.Failure?)
    ensures Confined(fs, cwd, DownloadDir(dest, blob), DownloadTarget(dest, blob), a)
    ensures WellFormed(fs) ==> WellFormed(a.fs)
  {
    var dir, target := DownloadDir(dest, blob), DownloadTarget(dest, blob);
    DownloadDirIsParent(cwd, dest, blob);
    Store(fs, cwd, dir, target)
  }

  /** Ensure `dir`, then write `target`, whose parent `dir` names. */
  function Store(fs: Fs, cwd: Path, dir: Path, target: Path): (a: Attempt<FsError>)
    requires Key(cwd, Dirname(target)) == Key(cwd, dir)
    ensures a.outcome.Success? ==>
              && a.outcome.value == target
              && Key(cwd, target) in a.fs.files
              && Key(cwd, dir) in a.fs.dirs
    ensures a.outcome.Success? && WellFormed(fs) ==> Ancestry(Key(cwd, dir)) <= a.fs.dirs
    ensures dir == [] ==> a == Attempt(fs, Failure(NoSuchFileOrDirectory([])))
    ensures var up := Ancestry(Key(cwd, dir));
            && (dir != [] && up * fs.files == {} && Key(cwd, target) !in fs.dirs + up
                ==> a.outcome == Success(target))
            && (Key(cwd, target) in fs.dirs ==> a.outcome.Failure?)
    ensures Confined(fs, cwd, dir, target, a)
    ensures WellFormed(fs) ==> WellFormed(a.fs)
  {
    assert Key(cwd, dir) in Ancestry(Key(cwd, dir));
    match EnsureDir(fs, cwd, dir)
    case Failure(e) => Attempt(fs, Failure(e))
    case Success(fs') =>
      match OpenForWrite(fs', cwd, target)
      case Failure(e) => Attempt(fs', Failure(e))
      case Success(fs'') => Attempt(fs'', Success(target))
  }

  /** A repeated download finds its directory in place and creates nothing more. */
  lemma RepeatDownloadCreatesNothing(fs: Fs, cwd: Path, blob: Path, dest: Path)
    requires DownloadBlob(fs, cwd, blob, dest).outcome.Success?
    ensures DownloadBlob(DownloadBlob(fs, cwd, blob, dest).fs, cwd, blob, dest).fs.dirs
            == DownloadBlob(fs, cwd, blob, dest).fs.dirs
  {
  }
}

=== FILE: blob_access_class.dfy ===
/** The `BlobAccessClass` wrapper: the state it keeps between calls, its
    listing, selection and search operations over names an SDK listing
    yields, and the path resolution of `download_blob`. The SDK listings are
    inputs; a container client is represented by its container's name. */
module BlobAccess {
  import opened Wrappers
  import opened PosixPath
  import opened Listing
  import opened LocalFs

  /** The instance attributes. `searchResults` is `[]` before the first search. */
  datatype Session = Session(
    containerList: seq<string>,
    containerClient: Option<string>,
    blobs: seq<string>,
    searchResults: seq<string>)

  datatype AccessError =
    | NameRequired
    | UnknownContainer(name: string)
    | NoContainerSelected
    | Os(fsError: FsError)

  /** `list_containers`: `container_list` becomes the listed names, in order. */
  method ListContainers(s: Session, listing: seq<string>) returns (s': Session)
    ensures s'.containerList == listing
    ensures s'.containerClient == s.containerClient
    ensures s'.blobs == s.blobs && s'.searchResults == s.searchResults
  {
    var names := Collect([], listing);
    s' := s.(containerList := names);
  }

  /** `get_container`: an empty name and a name missing from
      `container_list` are rejected; otherwise the named container becomes
      the selected one. A rejection leaves the session as it was. */
  function GetContainer(s: Session, name: string): (r: Result<Session, AccessError>)
    ensures r.Success? <==> name != [] && name in s.containerList
    ensures name == [] ==> r == Failure(NameRequired)
    ensures name != [] && name !in s.containerList ==> r == Failure(UnknownContainer(name))
    ensures r.Success? ==> && r.value.containerClient == Some(name)
                           && r.value.containerList == s.containerList
                           && r.value.blobs == s.blobs
                           && r.value.searchResults == s.searchResults
  {
    if name == [] then Failure(NameRequired)
    else if name !in s.containerList then Failure(UnknownContainer(name))
    else Success(s.(containerClient := Some(name)))
  }

  /** The list `list_blobs` starts from: the one passed in, or a fresh empty
      one when it is `None` or empty. */
  function InitialBlobs(given: Option<seq<string>>): seq<string> {
    match given
    case None => []
    case Some(names) => names
  }

  /** `list_blobs`: `blobs` is reset to the given list and then every name
      the selected container lists is appended. Without a selected container
      the reset still happens and the call fails. */
  method ListBlobs(s: Session, given: Option<seq<string>>, listing: seq<string>)
    returns (s': Session, r: Result<(), AccessError>)
    ensures r.Failure? <==> s.containerClient.None?
    ensures r.Failure? ==> r.error == NoContainerSelected && s'.blobs == InitialBlobs(given)
    ensures r.Success? ==> s'.blobs == InitialBlobs(given) + listing
    ensures s'.containerList == s.containerList && s'.containerClient == s.containerClient
    ensures s'.searchResults == s.searchResults
  {
    var start := InitialBlobs(given);
    if s.containerClient.None? {
      s' := s.(blobs := start);
      r := Failure(NoContainerSelected);
    } else {
      var names := Collect(start, listing);
      s' := s.(blobs := names);
      r := Success(());
    }
  }

  /** `search_blob`: the names of the selected container's listing that
      contain `term`, in listing order, also kept as `search_results`.
      Without a selected container the call fails before anything changes. */
  method SearchBlob(s: Session, listing: seq<string>, term: string)
    returns (s': Session, r: Result<seq<string>, AccessError>)
    ensures r.Failure? <==> s.containerClient.None?
    ensures r.Failure? ==> r.error == NoContainerSelected && s' == s
    ensures r.Success? ==> && s'.searchResults == r.value
                           && s'.containerList == s.containerList
                           && s'.containerClient == s.containerClient
                           && s'.blobs == s.blobs
    ensures r.Success? ==> && |r.value| == |MatchingIndices(listing, term)|
                           && forall k :: 0 <= k < |r.value| ==>
                                r.value[k] == listing[MatchingIndices(listing, term)[k]]
  {
    if s.containerClient.None? {
      s' := s;
      r := Failure(NoContainerSelected);
    } else {
      var found := CollectMatching(listing, term);
      s' := s.(searchResults := found);
      r := Success(found);
    }
  }

  /** The four-way choice of `download_blob` of where the blob is written,
      from what the destination `dest` currently is. */
  function ResolveTarget(kind: Kind, cwd: Path, dest: Path, blob: Path): Path {
    match kind
    case Dir => Join(dest, blob)
    case File => Join(Join(Dirname(dest), Dirname(blob)), Basename(dest))
    case Missing =>
      var (_, ext) := SplitExt(dest);
      var local := if ext == [] then Join(dest, Basename(blob)) else dest;
      Join(cwd, local)
  }

  /** An existing directory receives the blob under its full name: the
      blob's virtual folders are kept below the destination, and a relative
      destination stays relative, without the current directory in front. */
  lemma DirectoryDestination(cwd: Path, dest: Path, blob: Path)
    ensures Basename(ResolveTarget(Dir, cwd, dest, blob)) == Basename(blob)
    ensures Dirname(ResolveTarget(Dir, cwd, dest, blob)) == Canon(Join(dest, Dirname(blob)))
    ensures !IsAbsolute(blob) ==> ResolveTarget(Dir, cwd, dest, blob)[..|JoinPrefix(dest)|] == JoinPrefix(dest)
    ensures !IsAbsolute(dest) && !IsAbsolute(blob) ==> !IsAbsolute(ResolveTarget(Dir, cwd, dest, blob))
  {
    BasenameOfJoin(dest, blob);
    DirnameOfJoin(dest, blob);
    JoinKeepsRelative(dest, blob);
  }

  /** A blob whose name is absolute escapes an existing directory
      destination: `join` drops the destination and the blob's own path
      is written. */
  lemma AbsoluteBlobEscapes(cwd: Path, dest: Path, blob: Path)
    requires IsAbsolute(blob)
    ensures ResolveTarget(Dir, cwd, dest, blob) == blob
  {
  }

  /** An existing file keeps its own file name; the blob's folder is
      inserted between the file's directory and that name. */
  lemma FileDestination(cwd: Path, dest: Path, blob: Path)
    ensures Basename(ResolveTarget(File, cwd, dest, blob)) == Basename(dest)
    ensures Dirname(ResolveTarget(File, cwd, dest, blob)) == Canon(Join(Dirname(dest), Dirname(blob)))
  {
    var parent := Join(Dirname(dest), Dirname(blob));
    BasenameOfJoin(parent, Basename(dest));
    DirnameOfJoin(parent, Basename(dest));
    DirnameEmpty(Basename(dest));
    assert Join(parent, []) == JoinPrefix(parent);
    CanonJoinPrefix(parent);
  }

  /** A missing destination without an extension is taken as a directory
      to be: the blob lands in it, under the current directory, keeping
      only its base name. */
  lemma MissingDirectoryDestination(cwd: Path, dest: Path, blob: Path)
    requires !HasExtension(dest)
    ensures Basename(ResolveTarget(Missing, cwd, dest, blob)) == Basename(blob)
    ensures Dirname(ResolveTarget(Missing, cwd, dest, blob)) == Key(cwd, dest)
  {
    var name := Basename(blob);
    JoinAssociative(cwd, dest, name);
    var parent := Join(cwd, dest);
    BasenameOfJoin(parent, name);
    DirnameOfJoin(parent, name);
    DirnameEmpty(name);
    assert Join(parent, []) == JoinPrefix(parent);
    CanonJoinPrefix(parent);
  }

  /** A missing destination with an extension is the file to write, taken
      relative to the current directory; an absolute one is used as given. */
  lemma MissingFileDestination(cwd: Path, dest: Path, blob: Path)
    requires HasExtension(dest)
    ensures ResolveTarget(Missing, cwd, dest, blob) == Join(cwd, dest)
    ensures IsAbsolute(dest) ==> ResolveTarget(Missing, cwd, dest, blob) == dest
    ensures Basename(ResolveTarget(Missing, cwd, dest, blob)) == Basename(dest)
  {
    BasenameOfJoin(cwd, dest);
  }

  /** The empty destination is neither a directory nor a file and has no
      extension, so the blob's base name is written in the current directory. */
  lemma EmptyDestination(fs: Fs, cwd: Path, blob: Path)
    ensures Probe(fs, cwd, []) == Missing
    ensures ResolveTarget(Probe(fs, cwd, []), cwd, [], blob) == Join(cwd, Basename(blob))
  {
    assert !HasExtension([]);
  }

  /** The steps after resolution: the parent directory is ensured (with
      the given result), a container must be selected, and the blob is
      written to the target. */
  function Write(s: Session, fs: Fs, cwd: Path, target: Path, ensured: Result<Fs, FsError>): (a: Attempt<AccessError>)
    ensures ensured.Failure? ==> a.fs == fs && a.outcome == Failure(Os(ensured.error))
    ensures a.outcome.Success? ==> && a.outcome.value == target
                                   && Key(cwd, Dirname(target)) in a.fs.dirs
                                   && Key(cwd, target) in a.fs.files
    ensures a.outcome.Success? <==> && ensured.Success?
                                    && s.containerClient.Some?
                                    && Key(cwd, Dirname(target)) in ensured.value.dirs
                                    && Key(cwd, target) !in ensured.value.dirs
    ensures ensured.Success? ==> && a.fs.dirs == ensured.value.dirs
                                 && ensured.value.files <= a.fs.files <= ensured.value.files + {Key(cwd, target)}
    ensures s.containerClient.None? ==> a.outcome.Failure?
  {
    match ensured
    case Failure(e) => Attempt(fs, Failure(Os(e)))
    case Success(fs') =>
      if s.containerClient.None? then Attempt(fs', Failure(NoContainerSelected))
      else
        match OpenForWrite(fs', cwd, target)
        case Failure(e) => Attempt(fs', Failure(Os(e)))
        case Success(fs'') => Attempt(fs'', Success(target))
  }

  /** The steps of `download_blob` after resolution, as written: create
      the target's parent directory when it does not exist, then write. */
  function Fetch(s: Session, fs: Fs, cwd: Path, target: Path): (a: Attempt<AccessError>)
    ensures s.containerClient.None? ==> a.outcome.Failure?
    ensures a.outcome.Success? ==>
              && a.outcome.value == target
              && Dirname(target) != []
              && Key(cwd, target) in a.fs.files
              && Key(cwd, Dirname(target)) in a.fs.dirs
    ensures a.outcome.Success? && WellFormed(fs) ==> Ancestry(Key(cwd, Dirname(target))) <= a.fs.dirs
    ensures var up := Ancestry(Key(cwd, Dirname(target)));
            && (s.containerClient.Some? && Dirname(target) != [] && up * fs.files == {}
                && Key(cwd, target) !in fs.dirs + up
                ==> a.outcome == Success(target))
            && (Dirname(target) == [] || Key(cwd, target) in fs.dirs ==> a.outcome.Failure?)
    ensures Confined(fs, cwd, Dirname(target), target, a)
    ensures WellFormed(fs) ==> WellFormed(a.fs)
  {
    var parent := Dirname(target);
    assert Key(cwd, parent) in Ancestry(Key(cwd, parent));
    Write(s, fs, cwd, target, EnsureDir(fs, cwd, parent))
  }

  /** The same steps with the empty directory part of a bare file name read
      as the current directory, which is not created. */
  function FetchFixed(s: Session, fs: Fs, cwd: Path, target: Path): (a: Attempt<AccessError>)
    ensures s.containerClient.None? ==> a.outcome.Failure?
    ensures a.outcome.Success? ==>
              && a.outcome.value == target
              && Key(cwd, target) in a.fs.files
              && Key(cwd, Dirname(target)) in a.fs.dirs
    ensures a.outcome.Success? && WellFormed(fs) ==> Ancestry(Key(cwd, Dirname(target))) <= a.fs.dirs
    ensures var up := Ancestry(Key(cwd, Dirname(target)));
            && (s.containerClient.Some? && (Dirname(target) == [] ==> Key(cwd, []) in fs.dirs)
                && up * fs.files == {} && Key(cwd, target) !in fs.dirs + up
                ==> a.outcome == Success(target))
            && (Key(cwd, target) in fs.dirs ==> a.outcome.Failure?)
    ensures Confined(fs, cwd, Dirname(target), target, a)
    ensures WellFormed(fs) ==> WellFormed(a.fs)
  {
    var parent := Dirname(target);
    assert Key(cwd, parent) in Ancestry(Key(cwd, parent));
    Write(s, fs, cwd, target, EnsureDirOrCwd(fs, cwd, parent))
  }

  /** `download_blob` as written: resolve the target, create its parent
      directory when it does not exist, then write the blob there. It
      succeeds whenever a container is selected, the target's directory
      part is not empty, no file stands in the way of that directory and
      the target is not a directory; it creates nothing but that directory
      with its ancestors and the target file. */
  function DownloadBlob(s: Session, fs: Fs, cwd: Path, blob: Path, dest: Path): (a: Attempt<AccessError>)
    ensures s.containerClient.None? ==> a.outcome.Failure?
    ensures var t := ResolveTarget(Probe(fs, cwd, dest), cwd, dest, blob);
            var up := Ancestry(Key(cwd, Dirname(t)));
            && (a.outcome.Success? ==>
                  a.outcome.value == t && Dirname(t) != []
                  && Key(cwd, t) in a.fs.files && Key(cwd, Dirname(t)) in a.fs.dirs)
            && (a.outcome.Success? && WellFormed(fs) ==> up <= a.fs.dirs)
            && (s.containerClient.Some? && Dirname(t) != [] && up * fs.files == {} && Key(cwd, t) !in fs.dirs + up
                ==> a.outcome == Success(t))
            && (Dirname(t) == [] || Key(cwd, t) in fs.dirs ==> a.outcome.Failure?)
            && Confined(fs, cwd, Dirname(t), t, a)
    ensures WellFormed(fs) ==> WellFormed(a.fs)
  {
    Fetch(s, fs, cwd, ResolveTarget(Probe(fs, cwd, dest), cwd, dest, blob))
  }

  /** `download_blob` with the directory part of a bare file name read as
      the current directory. It succeeds under the same conditions as
      `DownloadBlob`, except that an empty directory part needs only the
      current directory to be a directory. */
  function DownloadBlobFixed(s: Session, fs: Fs, cwd: Path, blob: Path, dest: Path): (a: Attempt<AccessError>)
    ensures s.containerClient.None? ==> a.outcome.Failure?
    ensures var t := ResolveTarget(Probe(fs, cwd, dest), cwd, dest, blob);
            var up := Ancestry(Key(cwd, Dirname(t)));
            && (a.outcome.Success? ==>
                  a.outcome.value == t && Key(cwd, t) in a.fs.files && Key(cwd, Dirname(t)) in a.fs.dirs)
            && (a.outcome.Success? && WellFormed(fs) ==> up <= a.fs.dirs)
            && (s.containerClient.Some? && (Dirname(t) == [] ==> Key(cwd, []) in fs.dirs)
                && up * fs.files == {} && Key(cwd, t) !in fs.dirs + up
                ==> a.outcome == Success(t))
            && (Key(cwd, t) in fs.dirs ==> a.outcome.Failure?)
            && Confined(fs, cwd, Dirname(t), t, a)
    ensures WellFormed(fs) ==> WellFormed(a.fs)
  {
    FetchFixed(s, fs, cwd, ResolveTarget(Probe(fs, cwd, dest), cwd, dest, blob))
  }

  /** As written, an existing file named without a directory, receiving a
      blob named without a folder, resolves to a target whose directory part
      is empty, and `os.makedirs("")` fails: the download raises instead of
      overwriting the file. */
  lemma BareFileDestinationFails(s: Session, fs: Fs, cwd: Path, blob: Path, dest: Path)
    requires Sep !in dest && Sep !in blob
    requires Probe(fs, cwd, dest) == File
    ensures ResolveTarget(File, cwd, dest, blob) == dest
    ensures DownloadBlob(s, fs, cwd, blob, dest).outcome == Failure(Os(NoSuchFileOrDirectory([])))
  {
    BareName(dest);
    BareName(blob);
    assert Join([], []) == [];
  }

  /** The failing case on concrete values: "report.csv" exists in "/work"
      and the blob "data.csv" is downloaded onto it. */
  lemma BareFileDestinationExample()
    ensures DownloadBlob(Session([], Some("c"), [], []), Fs({"/work"}, {"/work/report.csv"}),
                         "/work", "data.csv", "report.csv").outcome
            == Failure(Os(NoSuchFileOrDirectory([])))
  {
    var fs := Fs({"/work"}, {"/work/report.csv"});
    assert Join("/work", "report.csv") == "/work/report.csv";
    assert !AllSlashes("/work/report.csv") by {
      assert "/work/report.csv"[1] != Sep;
    }
    assert Key("/work", "report.csv") == "/work/report.csv";
    assert forall k :: 0 <= k < |"report.csv"| ==> "report.csv"[k] != Sep;
    assert forall k :: 0 <= k < |"data.csv"| ==> "data.csv"[k] != Sep;
    BareFileDestinationFails(Session([], Some("c"), [], []), fs, "/work", "data.csv", "report.csv");
  }

  /** With the directory part of a bare name read as the current directory,
      the same download overwrites the existing file. */
  lemma FixedOverwritesBareFile(s: Session, fs: Fs, cwd: Path, blob: Path, dest: Path)
    requires Sep !in dest && Sep !in blob
    requires Probe(fs, cwd, dest) == File
    requires s.containerClient.Some?
    requires Key(cwd, []) in fs.dirs
    ensures DownloadBlobFixed(s, fs, cwd, blob, dest).outcome == Success(dest)
  {
    BareName(dest);
    BareName(blob);
    assert Join([], []) == [];
  }

  /** The correction changes nothing but the failing case: whenever the
      download as written does not fail on the empty directory name, the
      corrected one does exactly the same. */
  lemma FixedAgreesElsewhere(s: Session, fs: Fs, cwd: Path, blob: Path, dest: Path)
    ensures DownloadBlob(s, fs, cwd, blob, dest).outcome != Failure(Os(NoSuchFileOrDirectory([])))
            ==> DownloadBlobFixed(s, fs, cwd, blob, dest) == DownloadBlob(s, fs, cwd, blob, dest)
  {
    var target := ResolveTarget(Probe(fs, cwd, dest), cwd, dest, blob);
    if Dirname(target) == [] {
      assert EnsureDir(fs, cwd, []) == Failure(NoSuchFileOrDirectory([]));
    }
  }

  /** Downloading twice to the same missing destination without an
      extension does not repeat the first call: the first call creates the
      destination as a directory, so the second takes the directory branch
      and writes the blob under its full name instead of its base name. */
  lemma RepeatDownloadTakesDirectoryBranch(s: Session, fs: Fs, cwd: Path, blob: Path, dest: Path)
    requires IsAbsolute(cwd)
    requires Probe(fs, cwd, dest) == Missing && !HasExtension(dest)
    requires DownloadBlob(s, fs, cwd, blob, dest).outcome.Success?
    ensures dest != [] ==> Probe(DownloadBlob(s, fs, cwd, blob, dest).fs, cwd, dest) == Dir
    ensures dest != [] ==> ResolveTarget(Probe(DownloadBlob(s, fs, cwd, blob, dest).fs, cwd, dest), cwd, dest, blob)
                           == Join(dest, blob)
  {
    var a := DownloadBlob(s, fs, cwd, blob, dest);
    var target := ResolveTarget(Missing, cwd, dest, blob);
    MissingDirectoryDestination(cwd, dest, blob);
    var k := Key(cwd, dest);
    JoinKeepsAbsolute(cwd, dest);
    CanonKeepsAbsolute(Join(cwd, dest));
    CanonIdempotent(Join(cwd, dest));
    assert Key(cwd, Dirname(target)) == k;
  }

  /** An existing file `folder/name` receiving a blob `sub/bname` is
      written as `folder/sub/name`: "/data/out.csv" receiving
      "2024/report.csv" becomes "/data/2024/out.csv". */
  lemma FileDestinationLayout(cwd: Path, folder: Path, name: Path, sub: Path, bname: Path)
    requires folder != [] && folder[|folder| - 1] != Sep && Sep !in name
    requires sub != [] && sub[0] != Sep && sub[|sub| - 1] != Sep && Sep !in bname
    ensures ResolveTarget(File, cwd, folder + [Sep] + name, sub + [Sep] + bname)
            == folder + [Sep] + sub + [Sep] + name
  {
    FolderAndName(folder, name);
    FolderAndName(sub, bname);
    var mid := folder + [Sep] + sub;
    assert Join(folder, sub) == mid;
    assert mid[|mid| - 1] == sub[|sub| - 1];
    assert !IsAbsolute(name) by { assert name == [] || name[0] != Sep; }
    assert Join(mid, name) == mid + [Sep] + name;
  }

  /** With the empty destination, a blob "folder/name" is written as
      "name" in the current directory: its folder is dropped, so
      "golf-data/ALL_GOLF.parquet" run in "/work" lands at
      "/work/ALL_GOLF.parquet". */
  lemma EmptyDestinationDropsFolder(fs: Fs, cwd: Path, folder: Path, name: Path)
    requires folder != [] && folder[|folder| - 1] != Sep && Sep !in name
    ensures ResolveTarget(Probe(fs, cwd, []), cwd, [], folder + [Sep] + name) == Join(cwd, name)
  {
    FolderAndName(folder, name);
    EmptyDestination(fs, cwd, folder + [Sep] + name);
  }
}

=== FILE: listing.dfy ===
/** Name listings as both source files handle them: the names an SDK listing
    yields, collected in order, and the substring filter behind the two
    search operations. */
module Listing {

  /** Python's `term in name` on strings: `term` occurs in `name` as a
      contiguous piece. The empty term occurs in every name. */
  predicate Contains(name: string, term: string) {
    exists i | 0 <= i <= |name| - |term| :: OccursAt(name, term, i)
  }

  predicate OccursAt(name: string, term: string, i: int) {
    0 <= i <= |name| - |term| && name[i..i + |term|] == term
  }

  /** The names of `names` that contain `term`, in listing order. */
  function Filter(names: seq<string>, term: string): (r: seq<string>)
    ensures |r| <= |names|
    ensures forall k :: 0 <= k < |r| ==> Contains(r[k], term)
    ensures forall n :: n in r ==> n in names
  {
    if names == [] then []
    else
      var last := names[|names| - 1];
      Filter(names[..|names| - 1], term) + (if Contains(last, term) then [last] else [])
  }

  /** The positions of the listing whose names contain `term`, ascending. */
  function MatchingIndices(names: seq<string>, term: string): (idx: seq<int>)
    ensures forall k :: 0 <= k < |idx| ==> 0 <= idx[k] < |names|
    ensures forall k, l :: 0 <= k < l < |idx| ==> idx[k] < idx[l]
    ensures forall i :: 0 <= i < |names| ==> (i in idx <==> Contains(names[i], term))
  {
    if names == [] then []
    else
      var n := |names| - 1;
      var front := MatchingIndices(names[..n], term);
      assert forall i :: 0 <= i < n ==> names[..n][i] == names[i];
      front + (if Contains(names[n], term) then [n] else [])
  }

  /** The filter keeps exactly the names at the matching positions, in
      ascending order of position: a subsequence of the listing holding
      every name that contains the term, and only those. */
  lemma {:induction false} FilterSelectsMatching(names: seq<string>, term: string)
    ensures |Filter(names, term)| == |MatchingIndices(names, term)|
    ensures forall k :: 0 <= k < |MatchingIndices(names, term)| ==>
              Filter(names, term)[k] == names[MatchingIndices(names, term)[k]]
  {
    if names != [] {
      var n := |names| - 1;
      var init := names[..n];
      FilterSelectsMatching(init, term);
      var front, kept := MatchingIndices(init, term), Filter(init, term);
      var idx, r := MatchingIndices(names, term), Filter(names, term);
      var hit := Contains(names[n], term);
      assert idx == front + (if hit then [n] else []);
      assert r == kept + (if hit then [names[n]] else []);
      forall k | 0 <= k < |idx|
        ensures r[k] == names[idx[k]]
      {
        if k < |front| {
          assert r[k] == kept[k] == init[front[k]];
        }
      }
    }
  }

  /** Searching for the empty term returns the whole listing. */
  lemma {:induction false} FilterEmptyTerm(names: seq<string>)
    ensures Filter(names, []) == names
  {
    if names != [] {
      var n := |names| - 1;
      assert OccursAt(names[n], [], 0);
      FilterEmptyTerm(names[..n]);
      assert names[..n] + [names[n]] == names;
    }
  }

  /** Matching is literal: a term holding a character the name lacks, such
      as a '*' meant as a wildcard, never matches. */
  lemma LiteralMatchOnly(name: string, term: string, k: int)
    requires 0 <= k < |term| && term[k] !in name
    ensures !Contains(name, term)
  {
  }

  /** The accumulation loop of both listing operations: start from `acc` and
      append every listed name in turn. */
  method Collect(acc: seq<string>, listing: seq<string>) returns (r: seq<string>)
    ensures r == acc + listing
  {
    r := acc;
    var i := 0;
    while i < |listing|
      invariant 0 <= i <= |listing|
      invariant r == acc + listing[..i]
    {
      r := r + [listing[i]];
      i := i + 1;
    }
    assert listing[..i] == listing;
  }

  /** The search loop: append each listed name that contains `term`. */
  method CollectMatching(listing: seq<string>, term: string) returns (r: seq<string>)
    ensures |r| == |MatchingIndices(listing, term)|
    ensures forall k :: 0 <= k < |r| ==> r[k] == listing[MatchingIndices(listing, term)[k]]
  {
    r := [];
    var i := 0;
    while i < |listing|
      invariant 0 <= i <= |listing|
      invariant r == Filter(listing[..i], term)
    {
      assert listing[..i + 1][..i] == listing[..i];
      if Contains(listing[i], term) {
        r := r + [listing[i]];
      }
      i := i + 1;
    }
    assert listing[..i] == listing;
    FilterSelectsMatching(listing, term);
  }
}

=== FILE: local_fs.dfy ===
/** The local filesystem as the download operations see it: the probe they
    make of a destination (`os.path.isdir`, `os.path.isfile`,
    `os.path.exists`) and the directory creation they perform
    (`os.makedirs(..., exist_ok=True)`). */
module LocalFs {
  import opened Wrappers
  import opened PosixPath

  /** What probing a path finds. */
  datatype Kind = Missing | File | Dir

  /** The directories and regular files on disk, each recorded under its
      key: the absolute path with trailing separators removed. */
  datatype Fs = Fs(dirs: set<Path>, files: set<Path>)

  datatype FsError =
    | NoSuchFileOrDirectory(path: Path)
    | FileExists(path: Path)
    | NotADirectory(path: Path)
    | IsADirectory(path: Path)

  /** The key under which `p` is recorded when the process runs in `cwd`. */
  function Key(cwd: Path, p: Path): Path {
    Canon(Join(cwd, p))
  }

  /** `os.path.isdir(p)`, then `os.path.isfile(p)`; the empty path names nothing. */
  function Probe(fs: Fs, cwd: Path, p: Path): (k: Kind)
    ensures p == [] ==> k == Missing
    ensures k == Dir ==> Key(cwd, p) in fs.dirs
    ensures k == File ==> Key(cwd, p) in fs.files && Key(cwd, p) !in fs.dirs
    ensures k != Missing <==> Exists(fs, cwd, p)
  {
    if p == [] then Missing
    else if Key(cwd, p) in fs.dirs then Dir
    else if Key(cwd, p) in fs.files then File
    else Missing
  }

  /** `os.path.exists(p)`. */
  predicate Exists(fs: Fs, cwd: Path, p: Path) {
    p != [] && (Key(cwd, p) in fs.dirs || Key(cwd, p) in fs.files)
  }

  /** A key and the keys of all directories above it, up to the root. */
  function Ancestry(a: Path): (r: set<Path>)
    ensures a in r
    decreases |a|
  {
    var up := Dirname(a);
    {a} + (if up != [] && |up| < |a| then Ancestry(up) else {})
  }

  /** The ancestry of anything in an ancestry lies inside it. */
  lemma {:induction false} AncestryClosed(a: Path, b: Path)
    requires b in Ancestry(a)
    ensures Ancestry(b) <= Ancestry(a)
    decreases |a|
  {
    var up := Dirname(a);
    if b != a {
      AncestryClosed(up, b);
    }
  }

  /** Every directory's parents are directories too. */
  ghost predicate WellFormed(fs: Fs) {
    forall d :: d in fs.dirs ==> Ancestry(d) <= fs.dirs
  }

  /** `os.makedirs(d, exist_ok=True)`: creates `d` and every missing
      directory above it. It fails on the empty path (there is nothing to
      create, and exist_ok only excuses an existing directory), when `d` is
      a regular file, and when a directory above `d` is a regular file. */
  function MakeDirs(fs: Fs, cwd: Path, d: Path): (r: Result<Fs, FsError>)
    ensures r.Failure? <==> d == [] || Ancestry(Key(cwd, d)) * fs.files != {}
    ensures r.Success? ==> && Key(cwd, d) in r.value.dirs
                           && r.value.dirs == fs.dirs + Ancestry(Key(cwd, d))
                           && r.value.files == fs.files
    ensures r.Success? && WellFormed(fs) ==> WellFormed(r.value)
  {
    var k := Key(cwd, d);
    if d == [] then Failure(NoSuchFileOrDirectory(d))
    else if k in fs.files then Failure(FileExists(d))
    else if Ancestry(k) * fs.files != {} then Failure(NotADirectory(d))
    else
      var fs' := fs.(dirs := fs.dirs + Ancestry(k));
      assert WellFormed(fs) ==> WellFormed(fs') by {
        forall x | x in Ancestry(k) {
          AncestryClosed(k, x);
        }
      }
      Success(fs')
  }

  /** The guarded creation both download operations perform: `makedirs`
      only when the path does not exist yet. */
  function EnsureDir(fs: Fs, cwd: Path, d: Path): (r: Result<Fs, FsError>)
    ensures Exists(fs, cwd, d) ==> r == Success(fs)
    ensures d == [] ==> r == Failure(NoSuchFileOrDirectory([]))
    ensures r.Failure? <==> d == [] || (!Exists(fs, cwd, d) && Ancestry(Key(cwd, d)) * fs.files != {})
    ensures d != [] && Ancestry(Key(cwd, d)) * fs.files == {} ==> r.Success? && Key(cwd, d) in r.value.dirs
    ensures r.Success? ==> && Exists(r.value, cwd, d)
                           && fs.dirs <= r.value.dirs <= fs.dirs + Ancestry(Key(cwd, d))
                           && r.value.files == fs.files
    ensures r.Success? && WellFormed(fs) ==> WellFormed(r.value)
  {
    assert Key(cwd, d) in Ancestry(Key(cwd, d));
    if Exists(fs, cwd, d) then Success(fs) else MakeDirs(fs, cwd, d)
  }

  /** Ensuring a directory a second time changes nothing. */
  lemma EnsureDirIdempotent(fs: Fs, cwd: Path, d: Path)
    requires EnsureDir(fs, cwd, d).Success?
    ensures EnsureDir(EnsureDir(fs, cwd, d).value, cwd, d) == EnsureDir(fs, cwd, d)
  {
  }

  /** The guarded creation with the empty path read as the current
      directory, which always exists, so nothing is created for it. */
  function EnsureDirOrCwd(fs: Fs, cwd: Path, d: Path): (r: Result<Fs, FsError>)
    ensures d == [] ==> r == Success(fs)
    ensures d != [] ==> r == EnsureDir(fs, cwd, d)
  {
    if d == [] then Success(fs) else EnsureDir(fs, cwd, d)
  }

  /** The paths `p` and `Canon(p)` name the same entry. */
  lemma {:induction false} KeyCanon(cwd: Path, p: Path)
    ensures Key(cwd, Canon(p)) == Key(cwd, p)
  {
    if !AllSlashes(p) {
      var c := Canon(p);
      assert c[0] == p[0];
      assert !AllSlashes(c) by { assert c[|c| - 1] != Sep; }
      CanonIdempotent(p);
      if !IsAbsolute(p) {
        var pre := JoinPrefix(cwd);
        CanonAppend(pre, p);
        CanonAppend(pre, c);
      }
    }
  }

  /** The outcome of a download: the filesystem afterwards (directories
      may have been created even when the call then fails) and the path
      written. */
  datatype Attempt<+E> = Attempt(fs: Fs, outcome: Result<Path, E>)

  /** What a download that ensures `dir` and then writes `target` may do to
      the filesystem: when `dir` is not a directory and a regular file
      stands at it or above it, it fails and changes nothing; otherwise it
      creates nothing but `dir` with its ancestors and the target file. */
  ghost predicate Confined<E>(fs: Fs, cwd: Path, dir: Path, target: Path, a: Attempt<E>) {
    var up := Ancestry(Key(cwd, dir));
    && (dir != [] && Key(cwd, dir) !in fs.dirs && up * fs.files != {} ==> a.outcome.Failure? && a.fs == fs)
    && fs.dirs <= a.fs.dirs <= fs.dirs + up
    && fs.files <= a.fs.files <= fs.files + {Key(cwd, target)}
  }

  /** `open(target, "wb")` and the write: the file is created (or
      truncated) when its parent is a directory and it is not one itself. */
  function OpenForWrite(fs: Fs, cwd: Path, target: Path): (r: Result<Fs, FsError>)
    ensures r.Success? <==> Key(cwd, Dirname(target)) in fs.dirs && Key(cwd, target) !in fs.dirs
    ensures r.Success? ==> && r.value.dirs == fs.dirs
                           && Key(cwd, target) in r.value.files
                           && r.value.files - {Key(cwd, target)} == fs.files - {Key(cwd, target)}
  {
    var parent := Dirname(target);
    if Key(cwd, parent) !in fs.dirs then Failure(NotADirectory(parent))
    else if Key(cwd, target) in fs.dirs then Failure(IsADirectory(target))
    else Success(fs.(files := fs.files + {Key(cwd, target)}))
  }
}

=== FILE: posix_path.dfy ===
/** POSIX path-string helpers with the behaviour of CPython's `posixpath`
    module: `join`, `basename`, the unstripped head of `split` (as `Head`), `dirname` and
    `splitext`. Paths are plain strings over the separator '/'; nothing here
    looks at a filesystem. */
module PosixPath {

  type Path = string

  const Sep: char := '/'
  const ExtSep: char := '.'

  predicate IsAbsolute(p: Path) {
    |p| > 0 && p[0] == Sep
  }

  predicate AllSlashes(p: Path) {
    forall k :: 0 <= k < |p| ==> p[k] == Sep
  }

  /** `i` is the index of the last occurrence of `c` in `s`, or -1 when there is none. */
  ghost predicate IsLastIndex(s: string, c: char, i: int) {
    && -1 <= i < |s|
    && (i >= 0 ==> s[i] == c)
    && (forall j :: i < j < |s| ==> s[j] != c)
  }

  /** `str.rfind` for a single character. */
  function LastIndexOf(s: string, c: char): (i: int)
    ensures IsLastIndex(s, c, i)
  {
    if |s| == 0 then -1
    else if s[|s| - 1] == c then |s| - 1
    else LastIndexOf(s[..|s| - 1], c)
  }

  lemma LastIndexUnique(s: string, c: char, i: int, i': int)
    requires IsLastIndex(s, c, i) && IsLastIndex(s, c, i')
    ensures i == i'
  {
  }

  lemma {:induction false} LastIndexOfAppend(a: string, b: string, c: char)
    ensures c in b ==> LastIndexOf(a + b, c) == |a| + LastIndexOf(b, c)
    ensures c !in b ==> LastIndexOf(a + b, c) == LastIndexOf(a, c)
  {
    var ab := a + b;
    if c in b {
      var k := LastIndexOf(b, c);
      var m :| 0 <= m < |b| && b[m] == c;
      assert k >= m;
      assert IsLastIndex(ab, c, |a| + k) by {
        forall j | |a| + k < j < |ab|
          ensures ab[j] != c
        {
          assert ab[j] == b[j - |a|];
        }
      }
      LastIndexUnique(ab, c, LastIndexOf(ab, c), |a| + k);
    } else {
      var k := LastIndexOf(a, c);
      assert IsLastIndex(ab, c, k) by {
        forall j | k < j < |ab|
          ensures ab[j] != c
        {
          if j >= |a| {
            assert ab[j] == b[j - |a|];
          } else {
            assert ab[j] == a[j];
          }
        }
      }
      LastIndexUnique(ab, c, LastIndexOf(ab, c), k);
    }
  }

  /** `p[:p.rfind('/') + 1]`: everything up to and including the last '/',
      the head of `posixpath.split` before its trailing separators are stripped. */
  function Head(p: Path): Path {
    p[..LastIndexOf(p, Sep) + 1]
  }

  /** `posixpath.basename`: everything after the last '/'. */
  function Basename(p: Path): (r: Path)
    ensures Sep !in r
    ensures Head(p) + r == p
  {
    var i := LastIndexOf(p, Sep);
    assert p[..i + 1] + p[i + 1..] == p;
    p[i + 1..]
  }

  /** `str.rstrip('/')`. */
  function RStrip(p: Path): (r: Path)
    ensures |r| <= |p| && r == p[..|r|]
    ensures r == [] || r[|r| - 1] != Sep
    ensures AllSlashes(p[|r|..])
  {
    if |p| > 0 && p[|p| - 1] == Sep then RStrip(p[..|p| - 1]) else p
  }

  /** The trailing-separator normalisation `posixpath.dirname` applies to its
      head: strip trailing '/' unless the path consists of separators only. */
  function Canon(p: Path): (r: Path)
    ensures AllSlashes(p) ==> r == p
    ensures !AllSlashes(p) ==> r != [] && |r| <= |p| && r[|r| - 1] != Sep && r == p[..|r|] && AllSlashes(p[|r|..])
  {
    if AllSlashes(p) then p else RStripNonEmpty(p); RStrip(p)
  }

  lemma RStripNonEmpty(p: Path)
    requires !AllSlashes(p)
    ensures RStrip(p) != []
  {
  }

  /** `posixpath.dirname`. */
  function Dirname(p: Path): Path {
    Canon(Head(p))
  }

  /** What `posixpath.join` puts in front of a relative component: the
      path so far, followed by '/' unless it is empty or already ends in '/'. */
  function JoinPrefix(a: Path): (r: Path)
    ensures r == [] || r[|r| - 1] == Sep
    ensures r == [] <==> a == []
  {
    if a == [] || a[|a| - 1] == Sep then a else a + [Sep]
  }

  /** Two-argument `posixpath.join`. The n-argument form folds this from the left. */
  function Join(a: Path, b: Path): (r: Path)
    ensures IsAbsolute(b) ==> r == b
    ensures !IsAbsolute(b) ==> r == JoinPrefix(a) + b
  {
    if |b| > 0 && b[0] == Sep then b
    else if a == [] || a[|a| - 1] == Sep then a + b
    else a + [Sep] + b
  }

  /** True when some '.' of the base name follows a character that is not a
      '.': such a dot starts an extension. */
  ghost predicate HasExtension(p: Path) {
    exists j, i :: LastIndexOf(p, Sep) < j < i < |p| && p[j] != ExtSep && p[i] == ExtSep
  }

  predicate HasNonDot(p: Path, lo: int, hi: int)
    requires 0 <= lo && hi <= |p|
  {
    exists k | lo <= k < hi :: p[k] != ExtSep
  }

  /** `posixpath.splitext`: the extension starts at the last '.' of the base
      name, provided some non-'.' character of the base name comes before it
      (so leading dots, as in ".bashrc", never start an extension). */
  function SplitExt(p: Path): (r: (Path, Path))
    ensures r.0 + r.1 == p
    ensures r.1 != [] <==> HasExtension(p)
    ensures r.1 != [] ==> r.1[0] == ExtSep && Sep !in r.1 && ExtSep !in r.1[1..]
  {
    var s := LastIndexOf(p, Sep);
    var d := LastIndexOf(p, ExtSep);
    if d > s && HasNonDot(p, s + 1, d) then
      assert p[..d] + p[d..] == p;
      assert forall k :: 0 <= k < |p[d..]| ==> p[d..][k] == p[d + k];
      (p[..d], p[d..])
    else
      (p, [])
  }

  // ----- split, dirname and basename -----

  lemma {:induction false} HeadAppend(a: Path, b: Path)
    ensures Sep in b ==> Head(a + b) == a + Head(b)
    ensures Sep !in b ==> Head(a + b) == Head(a)
  {
    LastIndexOfAppend(a, b, Sep);
    var ab := a + b;
    if Sep in b {
      assert ab[..|a| + LastIndexOf(b, Sep) + 1] == a + b[..LastIndexOf(b, Sep) + 1];
    } else {
      assert ab[..LastIndexOf(a, Sep) + 1] == a[..LastIndexOf(a, Sep) + 1];
    }
  }

  /** A path that is empty or ends in '/' is its own head. */
  lemma HeadOfDirectoryPrefix(p: Path)
    requires p == [] || p[|p| - 1] == Sep
    ensures Head(p) == p
  {
  }

  /** Stripping trailing separators only touches the part after the last
      character that is not a separator. */
  lemma {:induction false} RStripAppend(a: Path, b: Path)
    requires !AllSlashes(b)
    ensures RStrip(a + b) == a + RStrip(b)
    decreases |b|
  {
    var ab := a + b;
    if b[|b| - 1] == Sep {
      var k :| 0 <= k < |b| && b[k] != Sep;
      assert b[..|b| - 1][k] == b[k];
      assert ab[..|ab| - 1] == a + b[..|b| - 1];
      RStripAppend(a, b[..|b| - 1]);
    }
  }

  lemma {:induction false} CanonIdempotent(p: Path)
    ensures Canon(Canon(p)) == Canon(p)
  {
    if !AllSlashes(p) {
      var r := Canon(p);
      assert r[|r| - 1] != Sep;
    }
  }

  /** `posixpath.dirname` returns the empty string exactly for paths without a separator. */
  lemma {:induction false} DirnameEmpty(p: Path)
    ensures Dirname(p) == [] <==> Sep !in p
  {
    var i := LastIndexOf(p, Sep);
    if Sep in p {
      var m :| 0 <= m < |p| && p[m] == Sep;
      assert i >= m;
      assert Head(p)[i] == Sep;
      if AllSlashes(Head(p)) {
        assert Dirname(p) == Head(p);
      } else {
        RStripNonEmpty(Head(p));
      }
    }
  }

  /** The base name is what follows the head. */
  lemma BasenameAfterHead(p: Path)
    ensures |Head(p)| <= |p| && Basename(p) == p[|Head(p)|..]
  {
    var h, r := Head(p), Basename(p);
    assert (h + r)[|h|..] == r;
  }

  /** A '/' followed by a suffix without '/' leaves that suffix as the base name. */
  lemma {:induction false} BasenameOfJoin(a: Path, b: Path)
    ensures Basename(Join(a, b)) == Basename(b)
  {
    if !IsAbsolute(b) {
      var pre := JoinPrefix(a);
      var ab := pre + b;
      assert Join(a, b) == ab;
      HeadAppend(pre, b);
      BasenameAfterHead(ab);
      BasenameAfterHead(b);
      if Sep in b {
        assert ab[|pre| + |Head(b)|..] == b[|Head(b)|..];
      } else {
        HeadOfDirectoryPrefix(pre);
        HeadAppend([], b);
        assert [] + b == b;
        assert ab[|pre|..] == b;
      }
    }
  }

  /** Trailing separators are stripped from the end only: text in front
      of a part that is not all separators is kept as it is. */
  lemma CanonAppend(a: Path, b: Path)
    requires !AllSlashes(b)
    ensures Canon(a + b) == a + Canon(b)
  {
    var k :| 0 <= k < |b| && b[k] != Sep;
    assert (a + b)[|a| + k] == b[k];
    RStripAppend(a, b);
  }

  /** The head of a path starts where the path starts, when it is not empty. */
  lemma HeadStart(p: Path)
    requires Sep in p
    ensures |Head(p)| > 0 && Head(p)[0] == p[0]
  {
    var m :| 0 <= m < |p| && p[m] == Sep;
    assert LastIndexOf(p, Sep) >= m;
  }

  /** The directory of a joined path is the join with the component's own
      directory: `join` keeps the virtual folders of its last component. */
  lemma {:induction false} DirnameOfJoin(a: Path, b: Path)
    ensures Dirname(Join(a, b)) == Canon(Join(a, Dirname(b)))
  {
    if IsAbsolute(b) {
      assert b[0] == Sep;
      HeadStart(b);
      CanonKeepsAbsolute(Head(b));
      CanonIdempotent(Head(b));
    } else if Sep in b {
      DirnameOfRelativeJoin(a, b);
    } else {
      var pre := JoinPrefix(a);
      HeadAppend(pre, b);
      HeadAppend([], b);
      assert [] + b == b;
      HeadOfDirectoryPrefix(pre);
      assert Join(a, []) == pre;
    }
  }

  lemma DirnameOfRelativeJoin(a: Path, b: Path)
    requires !IsAbsolute(b) && Sep in b
    ensures Dirname(Join(a, b)) == Canon(Join(a, Dirname(b)))
  {
    var pre := JoinPrefix(a);
    var h := Head(b);
    HeadAppend(pre, b);
    HeadStart(b);
    assert !AllSlashes(h) by { assert h[0] != Sep; }
    CanonAppend(pre, h);
    var d := Canon(h);
    assert d[0] == h[0];
    assert !AllSlashes(d) by { assert d[0] != Sep; }
    assert Join(a, d) == pre + d;
    CanonAppend(pre, d);
    CanonIdempotent(h);
  }

  // ----- join -----

  lemma {:induction false} JoinPrefixAppend(a: Path, b: Path)
    requires b != []
    ensures JoinPrefix(a + b) == a + JoinPrefix(b)
  {
  }

  /** Folding `join` from the left or nesting it from the right gives the
      same path, so `join(a, b, c) == join(a, join(b, c))`. */
  lemma {:induction false} JoinAssociative(a: Path, b: Path, c: Path)
    ensures Join(a, Join(b, c)) == Join(Join(a, b), c)
  {
    if !IsAbsolute(c) {
      var pa, pb := JoinPrefix(a), JoinPrefix(b);
      if b == [] {
        assert Join(b, c) == c;
        assert Join(a, b) == pa;
        assert JoinPrefix(pa) == pa;
      } else {
        assert (pb + c)[0] == b[0];
        assert Join(b, c) == pb + c;
        if !IsAbsolute(b) {
          assert Join(a, pb + c) == pa + (pb + c);
          JoinPrefixAppend(pa, b);
          assert Join(pa + b, c) == (pa + pb) + c;
        }
      }
    }
  }

  /** Joining onto an absolute path keeps the result absolute. */
  lemma JoinKeepsAbsolute(a: Path, b: Path)
    requires IsAbsolute(a) || IsAbsolute(b)
    ensures IsAbsolute(Join(a, b))
  {
  }

  /** A trailing separator added by `join(x, "")` disappears again under `dirname`'s normalisation. */
  lemma {:induction false} CanonJoinPrefix(x: Path)
    ensures Canon(JoinPrefix(x)) == Canon(x)
  {
    if x != [] && x[|x| - 1] != Sep {
      assert (x + [Sep])[|x| - 1] != Sep;
    }
  }

  /** A relative component is appended after the path so far, so joining
      two relative paths gives a relative path. */
  lemma {:induction false} JoinKeepsRelative(a: Path, b: Path)
    ensures !IsAbsolute(b) ==> Join(a, b)[..|JoinPrefix(a)|] == JoinPrefix(a)
    ensures !IsAbsolute(a) && !IsAbsolute(b) ==> !IsAbsolute(Join(a, b))
  {
    if !IsAbsolute(b) {
      var pre := JoinPrefix(a);
      assert Join(a, b)[..|pre|] == pre;
      if pre != [] {
        assert Join(a, b)[0] == a[0];
      }
    }
  }

  /** Removing trailing separators never removes the leading one. */
  lemma CanonKeepsAbsolute(p: Path)
    requires IsAbsolute(p)
    ensures IsAbsolute(Canon(p))
  {
    if !AllSlashes(p) {
      assert Canon(p)[0] == p[0];
    }
  }

  /** A name without a separator is its own base name and has no directory. */
  lemma BareName(p: Path)
    requires Sep !in p
    ensures Basename(p) == p && Dirname(p) == []
  {
    DirnameEmpty(p);
  }

  /** Splitting `folder + "/" + name` gives back the folder and the name. */
  lemma {:induction false} FolderAndName(folder: Path, name: Path)
    requires folder != [] && folder[|folder| - 1] != Sep && Sep !in name
    ensures Dirname(folder + [Sep] + name) == folder
    ensures Basename(folder + [Sep] + name) == name
  {
    assert Join(folder, name) == folder + [Sep] + name;
    BareName(name);
    BasenameOfJoin(folder, name);
    DirnameOfJoin(folder, name);
    assert Join(folder, []) == JoinPrefix(folder);
    CanonJoinPrefix(folder);
  }
}

=== FILE: wrappers.dfy ===
/** Small failure-carrying datatypes shared by the other modules. A Python
    exception that the modelled code raises becomes a `Failure` value. */
module Wrappers {

  datatype Option<+T> = None | Some(value: T)

  datatype Result<+T, +E> = Success(value: T) | Failure(error: E)
}
